=== FILE: README.md ===
# vent.js dispatcher, modelled in Dafny

vent.js is a small in-process event dispatcher. A dispatcher owns a registry
(`events`) from an event key to the ordered list of listener records
`{callback, context}` bound under it, and offers three operations, each keyed
on an event string that is cut at every run of whitespace:

- `bind(events, callback, context)` appends one listener per token;
- `unbind()` wipes the registry; `unbind(events)` (no function callback)
  deletes each named key; `unbind(events, callback, context?)` removes the
  matching listeners of each named key by a reverse-index `splice` loop and
  deletes a key once it is empty;
- `trigger(events, ...args)` calls, token by token, the listeners of that
  exact key in binding order with `args`, with `this` the listener's context
  or else the dispatcher; when key `"all"` is present it then calls the same
  listeners a second time with the full argument list, whose first element is
  the whole event string.

The model is functional. The registry is a `map<string, seq<Listener>>`;
callbacks and contexts are opaque identities compared by equality, as `===`
compares them; `Trigger` returns the trace of invocations
(`Invocation(callback, receiver, args)`) instead of running code, so the
registry cannot change while it is triggered. The imperative token loop of
`unbind` with its reverse splice is also written as methods and proved equal
to the functional definition.

Modules: `Spliter` (the `/\s+/` split), `Events` (data model and the registry
invariant "no key maps to an empty list"), `Binding`, `Unbinding`, `Splice`
(the imperative unbind), `Dispatch` (trigger), `Laws` (properties relating
the operations), `Options` and `Seqs` (small facts about sequences).

The model follows vent.js where its tests (test.js, tests/test.js) expect
more: there are no `on`/`off` aliases, no `name.namespace` scoping, no `*`
wildcard and no context-only unbind. vent.js also raises no error for an
empty token: the empty string is an ordinary key, so `bind(" a", f)` also
binds under `""`. The
`"all"` pass re-invokes the triggered token's own listeners, not those bound
under `"all"`: those are called only when `"all"` is itself triggered
(`Laws.AllListenersNotCalled`).

## Model

| member | source | states |
|---|---|---|
| `Spliter.Split` | vent.js:24 | at least one piece; no piece holds whitespace; only the first and last piece can be empty; the pieces concatenated are the input with its whitespace removed; the first piece is the leading word; with more than one piece, the last one is empty iff the input ends in whitespace; exactly one piece iff the input has no whitespace, that piece being the input (so `""` gives `[""]`) |
| `Spliter.SplitJoin` | vent.js:24 | every well-formed piece list is recovered by splitting its single-space join |
| `Spliter.SplitWordRun` | vent.js:24 | a word, then any whitespace run (of any length and any `\s` characters), then a string not starting with whitespace splits into that word followed by the pieces of the rest; with the empty word this is a leading run, and together with the whitespace-free case it fixes every cut |
| `Events.New` | vent.js:19-21 | a new dispatcher has no key and satisfies the registry invariant |
| `Binding.BindToken` | vent.js:36-44 | one loop iteration adds the key if absent and puts the listener last under it; every other key keeps its list |
| `Binding.BindTokensSpec` | vent.js:35-45 | `BindTokens`: after the token loop each key's list is its old list followed by one copy of the listener per occurrence of the key among the tokens (duplicates included, no deduplication); the key set grows by exactly the tokens; the invariant is kept |
| `Binding.Bind` | vent.js:32-47 | the same for the split event string |
| `Unbinding.Keep` | vent.js:76-89 | the filtered list is no longer than the input and holds no matching listener |
| `Unbinding.KeepMembers` | vent.js:79-88 | a listener survives the filter iff it was present and does not match; `Matches`: same callback, and same context when a context is given |
| `Unbinding.KeepCount` | vent.js:79-88 | every non-matching listener keeps its multiplicity, every matching one drops to zero |
| `Unbinding.KeepAppend` | vent.js:76-89 | filtering distributes over concatenation, so survivors keep their relative order |
| `Unbinding.UnbindTokensSpec` | vent.js:64-97 | `UnbindToken`/`UnbindTokens`: without a callback exactly the named keys are deleted, whatever context is passed; with one, each named key keeps exactly its non-matching listeners and is present afterwards iff some remain; unnamed keys are untouched; the invariant is kept |
| `Unbinding.Unbind` | vent.js:55-101 | no arguments leave the empty registry; otherwise the token-loop properties for the split event string; the invariant is kept |
| `Splice.SpliceOut` | vent.js:76-89 | the reverse-index splice loop leaves exactly the filtered list |
| `Splice.UnbindEvent` | vent.js:67-96 | one iteration of the imperative token loop equals the functional one |
| `Splice.UnbindLoop` | vent.js:64-97 | the imperative token loop equals the functional `unbind` |
| `Dispatch.Pass` | vent.js:117-122 | one invocation (`Call`) per listener, in binding order, with the listener's callback, its context or else the dispatcher as `this` (`ReceiverOf`, vent.js:118 and vent.js:128), and the given arguments |
| `Dispatch.TriggerTokenSpec` | vent.js:113-134 | `TriggerToken`: an absent key invokes nothing; otherwise its listeners in order with the trailing arguments and, when `"all"` is present, the same listeners again with the event string prepended; the length is the list length, doubled when `"all"` is present |
| `Dispatch.TriggerTokensSpec` | vent.js:112-135 | `TriggerTokens`: every invocation of the token loop comes from a listener under one of the tokens and carries the trailing arguments, or the full list only when `"all"` is present; conversely every listener under every token is invoked with the trailing arguments, and again with the full list when `"all"` is present; the trace has one invocation per listener per token occurrence, twice that when `"all"` is present |
| `Dispatch.Trigger` | vent.js:107-137 | the same two directions and the same length for the tokens of the split event string |
| `Laws.TriggerTokensAppend` | vent.js:112-135 | triggering a token list is triggering its parts one after another, in token order |
| `Laws.TriggerOneWord` | vent.js:108-133 | triggering a whitespace-free string is one token pass, whose `"all"` pass passes that string first |
| `Laws.BindThenTrigger` | vent.js:41-44 | with `"all"` unbound, after binding under a whitespace-free key the next trigger of that key is the old trace followed by exactly one call of the new listener |
| `Laws.UnbindAllSilences` | vent.js:60-61 | after `unbind()` with no arguments every trigger invokes nothing |
| `Laws.AllListenersNotCalled` | vent.js:124-133 | a callback bound only under `"all"` is never invoked by a trigger whose tokens do not include `"all"` |
| `Laws.BindUnbindRoundTrip` | vent.js:76-94 | bind then unbind of the same whitespace-free key, callback and context (an object context or none) restores the registry exactly (a key the bind created is removed), when no listener already there matches |
| `Laws.UnbindIdempotent` | vent.js:64-97 | unbinding twice with the same arguments is unbinding once, in every mode |

## Left out

- The CommonJS/AMD/`window` export wrapper (vent.js:5-17): packaging only.
- Running callbacks: side effects, exceptions thrown by a callback and
  re-entrant `bind`/`unbind`/`trigger` from inside a callback are not
  modelled; a trigger is a pure trace over an unchanging registry, so the
  length cached at vent.js:117 and vent.js:127 never goes stale here.
- Keys that name inherited object properties (`constructor`, `toString`,
  `__proto__`, and on the array left by `unbind()` also `length`, `push`, …):
  in JavaScript `this.events[key]` holds an inherited value for them before
  any bind (a function, the prototype object for `__proto__`, or the
  array's length 0), so `bind`, `trigger` and `unbind` on such a key can
  throw or misbehave: `bind("length", f)` after `unbind()` fails at the
  `push` of vent.js:41, and `bind("__proto__", f)` after `unbind()` pushes
  the listener onto `Array.prototype`, which a later `unbind("__proto__")`
  does not delete (vent.js:73). The model treats every string as an
  ordinary key.
- `unbind()` replaces the registry object with an empty array (vent.js:61);
  the model uses the empty map, which behaves the same for ordinary keys.
- Dynamic typing: a callback that is not a function is `None` at unbind; a
  context that is not a non-null object is `None` at unbind; a falsy context
  at bind is `None` (so `this` is the dispatcher). A non-string event
  argument, or `unbind(undefined)`, throws in JavaScript and is not modelled.
- `bind` stores whatever callback it is given (vent.js:41-44) and `trigger`
  then calls `listener.callback.apply` (vent.js:121), which throws a
  TypeError for a non-function and aborts the rest of the dispatch; the
  model's `Callback` is always callable, so a non-function callback at
  `bind` is not modelled.
- The values of trigger arguments are opaque; only the event string that the
  `"all"` pass passes first is distinguished.
- `Spliter.IsWhitespace` lists the characters of ECMAScript's `\s` by code
  point; no other Unicode property is modelled.
- Strings are sequences of Unicode scalar values, whereas JavaScript strings
  are sequences of UTF-16 code units: a string holding a lone surrogate has
  no counterpart here. On well-formed strings splitting and key equality
  agree, since every `\s` character is a single BMP code unit.

=== FILE: bind.dfy ===
/** `bind(events, callback, context)`: append one listener per token. */
module Binding {
  import opened Options
  import opened Spliter
  import opened Events

  /** One iteration of the token loop: create the key if absent, then push. */
  function BindToken(reg: Registry, t: string, l: Listener): (r: Registry)
    ensures r.Keys == reg.Keys + {t}
    ensures r[t] == Lookup(reg, t) + [l]
    ensures forall k :: k != t ==> Lookup(r, k) == Lookup(reg, k)
  {
    reg[t := Lookup(reg, t) + [l]]
  }

  /** The token loop, in token order. */
  function BindTokens(reg: Registry, ts: seq<string>, l: Listener): Registry
    decreases |ts|
  {
    if ts == [] then reg
    else BindToken(BindTokens(reg, ts[..|ts| - 1], l), ts[|ts| - 1], l)
  }

  /** What the token loop does: each key ends with one more copy of `l` for
      every occurrence of it among the tokens, every other key is untouched,
      and the registry invariant is kept. */
  lemma {:induction false} BindTokensSpec(reg: Registry, ts: seq<string>, l: Listener)
    ensures BindTokens(reg, ts, l).Keys == reg.Keys + Tokens(ts)
    ensures forall k :: Lookup(BindTokens(reg, ts, l), k) == Lookup(reg, k) + Repeat(l, multiset(ts)[k])
    ensures Valid(reg) ==> Valid(BindTokens(reg, ts, l))
    decreases |ts|
  {
    if ts == [] {
      assert Tokens(ts) == {};
    } else {
      var init := ts[..|ts| - 1];
      BindTokensSpec(reg, init, l);
      BindTokensStep(reg, ts, l, BindTokens(reg, init, l));
    }
  }

  /** The inductive step of `BindTokens`: the last token adds one copy. */
  lemma BindTokensStep(reg: Registry, ts: seq<string>, l: Listener, before: Registry)
    requires ts != []
    requires before.Keys == reg.Keys + Tokens(ts[..|ts| - 1])
    requires forall k :: Lookup(before, k) == Lookup(reg, k) + Repeat(l, multiset(ts[..|ts| - 1])[k])
    requires Valid(reg) ==> Valid(before)
    ensures BindToken(before, ts[|ts| - 1], l).Keys == reg.Keys + Tokens(ts)
    ensures forall k :: Lookup(BindToken(before, ts[|ts| - 1], l), k)
                       == Lookup(reg, k) + Repeat(l, multiset(ts)[k])
    ensures Valid(reg) ==> Valid(BindToken(before, ts[|ts| - 1], l))
  {
    var init, t := ts[..|ts| - 1], ts[|ts| - 1];
    assert ts == init + [t];
    TokensSnoc(init, t);
    LookupStep(reg, before, init, t, l);
    ValidStep(reg, before, t, l);
  }

  /** The inductive step of `BindTokens` on every key. */
  lemma LookupStep(reg: Registry, before: Registry, init: seq<string>, t: string, l: Listener)
    requires forall k :: Lookup(before, k) == Lookup(reg, k) + Repeat(l, multiset(init)[k])
    ensures forall k :: Lookup(BindToken(before, t, l), k) == Lookup(reg, k) + Repeat(l, multiset(init + [t])[k])
  {
    forall k ensures Lookup(BindToken(before, t, l), k) == Lookup(reg, k) + Repeat(l, multiset(init + [t])[k]) {
      BindTokenKey(reg, before, init, t, l, k);
    }
  }

  /** One push keeps the registry invariant. */
  lemma ValidStep(reg: Registry, before: Registry, t: string, l: Listener)
    requires Valid(reg) ==> Valid(before)
    ensures Valid(reg) ==> Valid(BindToken(before, t, l))
  {
    var r := BindToken(before, t, l);
    if Valid(reg) {
      forall k | k in r ensures r[k] != [] {
        if k != t {
          assert Lookup(r, k) == Lookup(before, k);
        }
      }
    }
  }

  /** The inductive step of `BindTokens` on one key. */
  lemma BindTokenKey(reg: Registry, before: Registry, init: seq<string>, t: string, l: Listener, k: string)
    requires Lookup(before, k) == Lookup(reg, k) + Repeat(l, multiset(init)[k])
    ensures Lookup(BindToken(before, t, l), k) == Lookup(reg, k) + Repeat(l, multiset(init + [t])[k])
  {
    assert multiset(init + [t]) == multiset(init) + multiset{t};
    if k == t {
      RepeatSnoc(l, multiset(init)[k]);
    }
  }

  /** One more copy at the end is one more repetition. */
  lemma RepeatSnoc(l: Listener, n: nat)
    ensures Repeat(l, n) + [l] == Repeat(l, n + 1)
  {
  }

  /** `bind(events, callback, context)` on the registry `reg`. */
  function Bind(reg: Registry, events: string, callback: Callback, context: Option<Context>): (r: Registry)
    ensures r.Keys == reg.Keys + Tokens(Split(events))
    ensures forall k :: Lookup(r, k)
                       == Lookup(reg, k) + Repeat(Listener(callback, context), multiset(Split(events))[k])
    ensures Valid(reg) ==> Valid(r)
  {
    BindTokensSpec(reg, Split(events), Listener(callback, context));
    BindTokens(reg, Split(events), Listener(callback, context))
  }

}

=== FILE: events.dfy ===
/** The data model of the dispatcher: listener records and the registry that
    maps an event key to its listeners in binding order.

    JavaScript functions and context objects are compared only by identity
    (`===`), so both are opaque identities here. A context that is absent or
    falsy is `None`. */
module Events {
  import opened Options

  /** The identity of a callback function. */
  datatype Callback = Callback(id: nat)

  /** The identity of a context object. */
  datatype Context = Context(id: nat)

  /** One `{context, callback}` record pushed by `bind`. */
  datatype Listener = Listener(callback: Callback, context: Option<Context>)

  /** The `events` object: event key to listeners, oldest first. */
  type Registry = map<string, seq<Listener>>

  /** The registry invariant kept by every operation: no key is present
      with an empty listener list. */
  predicate Valid(reg: Registry)
  {
    forall k :: k in reg ==> reg[k] != []
  }

  /** The listeners under `k`; an absent key has none. */
  function Lookup(reg: Registry, k: string): seq<Listener>
  {
    if k in reg then reg[k] else []
  }

  /** The registry of a freshly constructed dispatcher. */
  function New(): (r: Registry)
    ensures Valid(r)
    ensures forall k :: k !in r && Lookup(r, k) == []
  {
    map[]
  }

  /** The distinct tokens of a token list. */
  function Tokens(ts: seq<string>): set<string>
  {
    set t | t in ts
  }

  /** The distinct tokens of a list with one more token. */
  lemma TokensSnoc(init: seq<string>, t: string)
    ensures Tokens(init + [t]) == Tokens(init) + {t}
  {
    forall k ensures k in Tokens(init + [t]) <==> k in Tokens(init) || k == t {
      assert k in init + [t] <==> k in init || k == t;
    }
  }

  /** `n` copies of listener `l`. */
  function Repeat(l: Listener, n: nat): (r: seq<Listener>)
    ensures |r| == n
    ensures forall i :: 0 <= i < n ==> r[i] == l
  {
    seq(n, _ => l)
  }

}

=== FILE: laws.dfy ===
/** Laws relating the three operations of the dispatcher to each other. */
module Laws {
  import opened Options
  import opened Seqs
  import opened Spliter
  import opened Events
  import opened Binding
  import opened Unbinding
  import opened Dispatch

  /** Triggering a list of tokens is triggering each part in turn. */
  lemma {:induction false} TriggerTokensAppend(reg: Registry, a: seq<string>, b: seq<string>,
                                               events: string, args: seq<Value>)
    ensures TriggerTokens(reg, a + b, events, args)
            == TriggerTokens(reg, a, events, args) + TriggerTokens(reg, b, events, args)
    decreases |b|
  {
    if b == [] {
      assert a + b == a;
    } else {
      var init := b[..|b| - 1];
      TriggerTokensAppend(reg, a, init, events, args);
      TriggerTokensAppendStep(reg, a, b, events, args);
    }
  }

  /** `TriggerTokensAppend` for `b` from the same fact for `b` without its
      last token. */
  lemma TriggerTokensAppendStep(reg: Registry, a: seq<string>, b: seq<string>,
                                events: string, args: seq<Value>)
    requires b != []
    requires TriggerTokens(reg, a + b[..|b| - 1], events, args)
             == TriggerTokens(reg, a, events, args) + TriggerTokens(reg, b[..|b| - 1], events, args)
    ensures TriggerTokens(reg, a + b, events, args)
            == TriggerTokens(reg, a, events, args) + TriggerTokens(reg, b, events, args)
  {
    var init, t := b[..|b| - 1], b[|b| - 1];
    var last := TriggerToken(reg, t, events, args);
    LastOfAppend(a, b);
    TriggerTokensUnfold(reg, a + b, events, args);
    TriggerTokensUnfold(reg, b, events, args);
    AppendAssoc(TriggerTokens(reg, a, events, args), TriggerTokens(reg, init, events, args), last);
  }

  /** The token loop, one iteration short, then its last iteration: the
      recursive case of `TriggerTokens` as a fact to call by name, which
      keeps the solver from unfolding `TriggerTokens(a + b)` on its own. */
  lemma TriggerTokensUnfold(reg: Registry, ts: seq<string>, events: string, args: seq<Value>)
    requires ts != []
    ensures TriggerTokens(reg, ts, events, args)
            == TriggerTokens(reg, ts[..|ts| - 1], events, args) + TriggerToken(reg, ts[|ts| - 1], events, args)
  {
  }

  /** One more token, its invocations at the end of the trace. */
  lemma TriggerTokensSnoc(reg: Registry, ts: seq<string>, t: string, events: string, args: seq<Value>)
    ensures TriggerTokens(reg, ts + [t], events, args)
            == TriggerTokens(reg, ts, events, args) + TriggerToken(reg, t, events, args)
  {
    assert (ts + [t])[..|ts|] == ts;
  }

  /** A single token is triggered by its own loop iteration alone. */
  lemma TriggerOneToken(reg: Registry, t: string, events: string, args: seq<Value>)
    ensures TriggerTokens(reg, [t], events, args) == TriggerToken(reg, t, events, args)
  {
    TriggerTokensSnoc(reg, [], t, events, args);
    assert [] + [t] == [t];
  }

  /** Triggering a whitespace-free event string is one iteration of the
      token loop, whose "all" pass passes that string as first argument. */
  lemma TriggerOneWord(reg: Registry, t: string, args: seq<Value>)
    requires IsWord(t)
    ensures Trigger(reg, t, args) == TriggerToken(reg, t, t, args)
  {
    assert Split(t) == [t];
    TriggerOneToken(reg, t, t, args);
  }

  /** Binding a listener under a whitespace-free key `t` other than "all",
      while "all" is not bound, makes the next trigger of `t` end with one
      invocation of the new listener, after those already bound. */
  lemma BindThenTrigger(reg: Registry, t: string, callback: Callback, context: Option<Context>, args: seq<Value>)
    requires IsWord(t) && t != "all" && "all" !in reg
    ensures Trigger(Bind(reg, t, callback, context), t, args)
            == Trigger(reg, t, args) + [Call(Listener(callback, context), args)]
  {
    var l := Listener(callback, context);
    var reg1 := Bind(reg, t, callback, context);
    BindOneToken(reg, t, l);
    TriggerOneToken(reg, t, t, args);
    TriggerOneToken(reg1, t, t, args);
    PassSnoc(Lookup(reg, t), l, args);
  }

  /** One more listener, one more invocation at the end of the pass. */
  lemma PassSnoc(ls: seq<Listener>, l: Listener, args: seq<Value>)
    ensures Pass(ls + [l], args) == Pass(ls, args) + [Call(l, args)]
  {
    var a, b := Pass(ls + [l], args), Pass(ls, args) + [Call(l, args)];
    assert |a| == |b|;
    forall i | 0 <= i < |a| ensures a[i] == b[i] {
      assert (ls + [l])[i] == if i < |ls| then ls[i] else l;
    }
  }

  /** After `unbind()` with no arguments, no trigger invokes anything. */
  lemma UnbindAllSilences(reg: Registry, events: string, args: seq<Value>)
    ensures Trigger(Unbind(reg, UnbindAll), events, args) == []
  {
    TriggerTokensNothing(Split(events), events, args);
  }

  /** The token loop over an empty registry produces no invocation. */
  lemma {:induction false} TriggerTokensNothing(ts: seq<string>, events: string, args: seq<Value>)
    ensures TriggerTokens(map[], ts, events, args) == []
    decreases |ts|
  {
    if ts != [] {
      TriggerTokensNothing(ts[..|ts| - 1], events, args);
    }
  }

  /** The "all" pass never reaches listeners bound under "all" unless
      "all" is itself one of the triggered tokens: a callback bound only
      under "all" is not invoked by a trigger that does not name "all". */
  lemma AllListenersNotCalled(reg: Registry, events: string, args: seq<Value>, callback: Callback)
    requires "all" !in Split(events)
    requires forall t, l :: t in reg && t != "all" && l in reg[t] ==> l.callback != callback
    ensures forall i :: 0 <= i < |Trigger(reg, events, args)| ==> Trigger(reg, events, args)[i].callback != callback
  {
    var r := Trigger(reg, events, args);
    forall i | 0 <= i < |r| ensures r[i].callback != callback {
      assert InvokedFromAny(r[i], reg, Split(events));
      var t :| t in Split(events) && InvokedFrom(r[i], reg, t);
      var l :| l in Lookup(reg, t) && r[i].callback == l.callback && r[i].receiver == ReceiverOf(l);
      assert t in reg && t != "all";
    }
  }

  /** Binding `(callback, context)` under a whitespace-free key and then
      unbinding the same triple restores the registry exactly, when no
      listener already under that key matches the triple; a key created by
      the bind is removed again. */
  lemma BindUnbindRoundTrip(reg: Registry, t: string, callback: Callback, context: Option<Context>)
    requires Valid(reg) && IsWord(t)
    requires forall x :: x in Lookup(reg, t) ==> !Matches(x, callback, context)
    ensures Unbind(Bind(reg, t, callback, context), UnbindNamed(t, Some(callback), context)) == reg
  {
    var l := Listener(callback, context);
    BindOneToken(reg, t, l);
    UnbindOneToken(Bind(reg, t, callback, context), t, Some(callback), context);
    PushThenFilter(reg, t, l);
  }

  /** The round trip on one key: push `l`, then filter `l`'s triple out. */
  lemma PushThenFilter(reg: Registry, t: string, l: Listener)
    requires Valid(reg)
    requires forall x :: x in Lookup(reg, t) ==> !Matches(x, l.callback, l.context)
    ensures UnbindToken(reg[t := Lookup(reg, t) + [l]], t, Some(l.callback), l.context) == reg
  {
    var old_ := Lookup(reg, t);
    var reg1 := reg[t := old_ + [l]];
    KeepAppend(old_, [l], l.callback, l.context);
    KeepNone(old_, l.callback, l.context);
    assert Keep([l], l.callback, l.context) == [];
    assert Keep(reg1[t], l.callback, l.context) == old_;
    if old_ == [] {
      assert t !in reg;
      assert reg1 - {t} == reg;
    } else {
      assert reg1[t := old_] == reg;
    }
  }

  /** Unbinding twice with the same arguments is unbinding once. */
  lemma UnbindIdempotent(reg: Registry, call: UnbindCall)
    ensures Unbind(Unbind(reg, call), call) == Unbind(reg, call)
  {
    if call.UnbindNamed? && call.callback.Some? {
      var ts, cb, ctx := Split(call.events), call.callback.value, call.context;
      var r1 := UnbindTokens(reg, ts, call.callback, ctx);
      var r2 := UnbindTokens(r1, ts, call.callback, ctx);
      UnbindTokensSpec(reg, ts, call.callback, ctx);
      UnbindTokensSpec(r1, ts, call.callback, ctx);
      forall k ensures Lookup(r2, k) == Lookup(r1, k) {
        if k in ts {
          KeepTwice(Lookup(reg, k), cb, ctx);
        }
      }
      forall k ensures k in r2 <==> k in r1 {
        if k in ts && k in r1 {
          KeepTwice(reg[k], cb, ctx);
        }
      }
      SameRegistry(r2, r1);
    }
  }

  /** Registries with the same keys and the same lists are equal. */
  lemma SameRegistry(a: Registry, b: Registry)
    requires forall k :: k in a <==> k in b
    requires forall k :: Lookup(a, k) == Lookup(b, k)
    ensures a == b
  {
    assert forall k :: k in a ==> a[k] == Lookup(a, k) == Lookup(b, k) == b[k];
  }


  /** Binding under a whitespace-free key is one push onto that key. */
  lemma BindOneToken(reg: Registry, t: string, l: Listener)
    requires IsWord(t)
    ensures Bind(reg, t, l.callback, l.context) == reg[t := Lookup(reg, t) + [l]]
  {
    assert Split(t) == [t];
    assert [t][..0] == [];
    assert BindTokens(reg, [], l) == reg;
  }

  /** Unbinding a whitespace-free key is one iteration of the token loop. */
  lemma UnbindOneToken(reg: Registry, t: string, callback: Option<Callback>, context: Option<Context>)
    requires IsWord(t)
    ensures Unbind(reg, UnbindNamed(t, callback, context)) == UnbindToken(reg, t, callback, context)
  {
    assert Split(t) == [t];
    assert [t][..0] == [];
    assert UnbindTokens(reg, [], callback, context) == reg;
  }

}

=== FILE: options.dfy ===
/** The optional-value datatype used for the loosely typed arguments of the
    dispatcher (a callback that may not be a function, a context that may not
    be an object). */
module Options {

  datatype Option<+T> = None | Some(value: T)

}

=== FILE: seqs.dfy ===
/** Small facts about sequence concatenation and slicing, stated once and
    called by name where a proof needs them, so the solver does not have to
    rediscover them in a larger context. */
module Seqs {

  /** Concatenation is associative. */
  lemma AppendAssoc<T>(p: seq<T>, q: seq<T>, r: seq<T>)
    ensures (p + q) + r == p + (q + r)
  {
  }

  /** The first element of `p + q`, for a non-empty `p`. */
  lemma FirstOfAppend<T>(p: seq<T>, q: seq<T>)
    requires p != []
    ensures p + q != [] && (p + q)[0] == p[0]
  {
  }

  /** The first `|a|` elements of `a + b` are `a`. */
  lemma PrefixOfAppend<T>(a: seq<T>, b: seq<T>)
    ensures (a + b)[..|a|] == a
  {
  }

  /** Dropping the last element of `a + b`, for a non-empty `b`. */
  lemma LastOfAppend<T>(a: seq<T>, b: seq<T>)
    requires b != []
    ensures (a + b)[..|a + b| - 1] == a + b[..|b| - 1]
    ensures (a + b)[|a + b| - 1] == b[|b| - 1]
  {
  }

  /** Dropping the first element of `a + b`, for a non-empty `a`. */
  lemma RestOfAppend<T>(a: seq<T>, b: seq<T>)
    requires a != []
    ensures (a + b)[0] == a[0]
    ensures (a + b)[1..] == a[1..] + b
  {
  }

  /** Cutting `p + q` around the last element of a non-empty `p`. */
  lemma SplitAt<T>(p: seq<T>, q: seq<T>, j: nat)
    requires |p| == j + 1
    ensures (p + q)[j] == p[j]
    ensures (p + q)[..j] + (p + q)[j + 1..] == p[..j] + q
    ensures p + q == p[..j] + ([p[j]] + q)
  {
    assert p == p[..j] + [p[j]];
  }

}

=== FILE: splice.dfy ===
/** The imperative shape of `unbind`: the token loop with its reverse-index
    `splice` loop, proved equal to the functional `Unbind`. */
module Splice {
  import opened Options
  import opened Seqs
  import opened Spliter
  import opened Events
  import opened Unbinding

  /** The inner loop: walk the listeners from the last index down to 0 and
      splice out every match. Removing at index `j` only shifts entries
      above `j`, which have already been visited, so the walk ends with
      exactly the non-matching listeners in their original order. */
  method SpliceOut(listeners: seq<Listener>, callback: Callback, context: Option<Context>)
    returns (r: seq<Listener>)
    ensures r == Keep(listeners, callback, context)
  {
    r := listeners;
    var n := |listeners|;
    assert listeners[n..] == [];
    while n > 0
      invariant n <= |listeners|
      invariant r == listeners[..n] + Keep(listeners[n..], callback, context)
    {
      n := n - 1;
      SpliceStep(listeners, n, r, callback, context);
      if Matches(r[n], callback, context) {
        r := r[..n] + r[n + 1..];
      }
    }
    assert listeners[0..] == listeners;
  }

  /** One step of the reverse walk: index `j` holds the unvisited listener
      `listeners[j]`, and splicing it out exactly when it matches extends
      the filtered suffix by one. */
  lemma SpliceStep(listeners: seq<Listener>, j: nat, r: seq<Listener>, callback: Callback, context: Option<Context>)
    requires j < |listeners|
    requires r == listeners[..j + 1] + Keep(listeners[j + 1..], callback, context)
    ensures j < |r| && r[j] == listeners[j]
    ensures Matches(r[j], callback, context) ==>
              r[..j] + r[j + 1..] == listeners[..j] + Keep(listeners[j..], callback, context)
    ensures !Matches(r[j], callback, context) ==>
              r == listeners[..j] + Keep(listeners[j..], callback, context)
  {
    var rest := Keep(listeners[j + 1..], callback, context);
    var p := listeners[..j + 1];
    assert p[..j] == listeners[..j] && p[j] == listeners[j];
    KeepAt(listeners, j, callback, context);
    SplitAt(p, rest, j);
    if Matches(listeners[j], callback, context) {
      assert Keep(listeners[j..], callback, context) == rest;
    } else {
      assert Keep(listeners[j..], callback, context) == [listeners[j]] + rest;
    }
  }

  /** `Keep` on the suffix from `j`: the listener at `j` unless it matches,
      then `Keep` on the suffix after it. */
  lemma KeepAt(ls: seq<Listener>, j: nat, callback: Callback, context: Option<Context>)
    requires j < |ls|
    ensures Keep(ls[j..], callback, context)
            == (if Matches(ls[j], callback, context) then [] else [ls[j]]) + Keep(ls[j + 1..], callback, context)
  {
    assert ls[j..][1..] == ls[j + 1..];
  }

  /** One iteration of the token loop of `unbind`: drop the key outright
      when there is no callback, otherwise splice its listeners and drop the
      key once it is empty. An absent key is skipped. */
  method UnbindEvent(r: Registry, event: string, callback: Option<Callback>, context: Option<Context>)
    returns (next: Registry)
    ensures next == UnbindToken(r, event, callback, context)
  {
    next := r;
    if event in r {
      if callback.None? {
        next := r - {event};
      } else {
        var listeners := SpliceOut(r[event], callback.value, context);
        if |listeners| == 0 {
          next := r - {event};
        } else {
          next := r[event := listeners];
        }
      }
    }
  }

  /** The `else` branch of `unbind`: the token loop over the split event
      string, in token order. */
  method UnbindLoop(reg: Registry, events: string, callback: Option<Callback>, context: Option<Context>)
    returns (r: Registry)
    ensures r == Unbind(reg, UnbindNamed(events, callback, context))
  {
    var split := Split(events);
    r := reg;
    var i := 0;
    assert split[..0] == [];
    while i < |split|
      invariant 0 <= i <= |split|
      invariant r == UnbindTokens(reg, split[..i], callback, context)
    {
      r := UnbindEvent(r, split[i], callback, context);
      UnbindTokensSnoc(reg, split, i, callback, context);
      i := i + 1;
    }
    assert split[..|split|] == split;
  }

  /** `UnbindTokens` over one more token is one more `UnbindToken`. */
  lemma UnbindTokensSnoc(reg: Registry, ts: seq<string>, i: nat, callback: Option<Callback>, context: Option<Context>)
    requires i < |ts|
    ensures UnbindTokens(reg, ts[..i + 1], callback, context)
            == UnbindToken(UnbindTokens(reg, ts[..i], callback, context), ts[i], callback, context)
  {
    assert ts[..i + 1][..i] == ts[..i];
  }

}

=== FILE: spliter.dfy ===
/** The event-string splitter of vent.js: `events.split(/\s+/)`.

    A JavaScript `String.prototype.split` on a regular expression that never
    matches the empty string cuts the input at every maximal run of
    whitespace. The pieces between the runs are returned in order; a leading
    (trailing) run yields an empty first (last) piece, and the empty string
    yields the single piece "". */
module Spliter {
  import opened Seqs

  /** The characters matched by `\s` in an ECMAScript regular expression:
      the WhiteSpace and LineTerminator productions. */
  predicate IsWhitespace(c: char)
  {
    || c == '\t' || c == '\n' || c == '\U{000B}' || c == '\U{000C}' || c == '\r'
    || c == ' ' || c == '\U{00A0}' || c == '\U{1680}'
    || ('\U{2000}' <= c <= '\U{200A}')
    || c == '\U{2028}' || c == '\U{2029}' || c == '\U{202F}' || c == '\U{205F}'
    || c == '\U{3000}' || c == '\U{FEFF}'
  }

  /** A token: a string with no whitespace character in it. */
  predicate IsWord(s: string)
  {
    forall k :: 0 <= k < |s| ==> !IsWhitespace(s[k])
  }

  /** A whitespace run: a non-empty string of whitespace characters only. */
  predicate IsRun(run: string)
  {
    run != [] && forall k :: 0 <= k < |run| ==> IsWhitespace(run[k])
  }

  /** The shape of every split result: at least one piece, no piece holds
      whitespace, and only the first and the last piece can be empty (two
      whitespace runs are never adjacent). */
  predicate WellFormed(ts: seq<string>)
  {
    && |ts| >= 1
    && (forall i :: 0 <= i < |ts| ==> IsWord(ts[i]))
    && (forall i :: 0 < i < |ts| - 1 ==> ts[i] != "")
  }

  /** The non-whitespace characters of `s` from index `i` on, in order. */
  function StripFrom(s: string, i: nat): string
    requires i <= |s|
    decreases |s| - i
  {
    if i == |s| then []
    else (if IsWhitespace(s[i]) then [] else [s[i]]) + StripFrom(s, i + 1)
  }

  /** The non-whitespace characters of `s`, in order. */
  function StripWhitespace(s: string): string
  {
    StripFrom(s, 0)
  }

  /** All pieces concatenated. */
  function Concat(ts: seq<string>): string
  {
    if ts == [] then [] else ts[0] + Concat(ts[1..])
  }

  /** Pieces joined with a single space between neighbours. */
  function Join(ts: seq<string>): string
    requires |ts| >= 1
  {
    if |ts| == 1 then ts[0] else ts[0] + " " + Join(ts[1..])
  }

  /** The end of the word starting at `i`: the first whitespace index at or
      after `i`, or the length of `s`. */
  function WordEnd(s: string, i: nat): (j: nat)
    requires i <= |s|
    ensures i <= j <= |s|
    ensures j < |s| ==> IsWhitespace(s[j])
    decreases |s| - i
  {
    if i == |s| || IsWhitespace(s[i]) then i else WordEnd(s, i + 1)
  }

  /** The end of the whitespace run starting at `i`: the first
      non-whitespace index at or after `i`, or the length of `s`. */
  function SpaceEnd(s: string, i: nat): (j: nat)
    requires i <= |s|
    ensures i <= j <= |s|
    ensures j < |s| ==> !IsWhitespace(s[j])
    decreases |s| - i
  {
    if i == |s| || !IsWhitespace(s[i]) then i else SpaceEnd(s, i + 1)
  }

  /** `s.split(/\s+/)`: cut `s` at each maximal whitespace run. */
  function Split(s: string): (r: seq<string>)
    ensures WellFormed(r)
    ensures Concat(r) == StripWhitespace(s)
    ensures r[0] == s[..WordEnd(s, 0)]
    ensures |s| > 0 && IsWhitespace(s[|s| - 1]) ==> r[|r| - 1] == ""
    ensures |r| > 1 ==> |s| > 0 && (r[|r| - 1] == "" <==> IsWhitespace(s[|s| - 1]))
    ensures |r| == 1 <==> IsWord(s)
    ensures IsWord(s) ==> r == [s]
  {
    CutHead(s, 0);
    WordAll(s);
    CutWellFormed(s, 0);
    CutContent(s, 0);
    CutLast(s, 0);
    CutLastIff(s, 0);
    Cut(s, 0)
  }

  /** The pieces of `s[i..]`: the leading word, then the pieces after the
      whitespace run that ends it. */
  function Cut(s: string, i: nat): seq<string>
    requires i <= |s|
    decreases |s| - i
  {
    var j := WordEnd(s, i);
    if j == |s| then [s[i..]]
    else [s[i..j]] + Cut(s, SpaceEnd(s, j))
  }

  /** The characters from `i` to the end of its word are not whitespace. */
  lemma {:induction false} WordRun(s: string, i: nat)
    requires i <= |s|
    ensures forall k :: i <= k < WordEnd(s, i) ==> !IsWhitespace(s[k])
    decreases |s| - i
  {
    if i < |s| && !IsWhitespace(s[i]) {
      WordRun(s, i + 1);
    }
  }

  /** The characters from `i` to the end of its run are whitespace. */
  lemma {:induction false} SpaceRun(s: string, i: nat)
    requires i <= |s|
    ensures forall k :: i <= k < SpaceEnd(s, i) ==> IsWhitespace(s[k])
    decreases |s| - i
  {
    if i < |s| && IsWhitespace(s[i]) {
      SpaceRun(s, i + 1);
    }
  }

  /** A string is a word exactly when its first word is all of it. */
  lemma WordAll(s: string)
    ensures IsWord(s) <==> WordEnd(s, 0) == |s|
  {
    WordRun(s, 0);
  }

  /** The first piece of `Cut`, and when it is the only one. */
  lemma {:induction false} CutHead(s: string, i: nat)
    requires i <= |s|
    ensures |Cut(s, i)| >= 1
    ensures Cut(s, i)[0] == s[i..WordEnd(s, i)]
    ensures |Cut(s, i)| == 1 <==> WordEnd(s, i) == |s|
    decreases |s| - i
  {
    var j := WordEnd(s, i);
    if j < |s| {
      CutHead(s, SpaceEnd(s, j));
    }
  }

  /** Every result of `Cut` is well formed. */
  lemma {:induction false} CutWellFormed(s: string, i: nat)
    requires i <= |s|
    ensures WellFormed(Cut(s, i))
    decreases |s| - i
  {
    var j := WordEnd(s, i);
    WordRun(s, i);
    assert IsWord(s[i..j]) by {
      forall k | 0 <= k < |s[i..j]| ensures !IsWhitespace(s[i..j][k]) {
        assert s[i..j][k] == s[i + k];
      }
    }
    if j < |s| {
      var e := SpaceEnd(s, j);
      var rest := Cut(s, e);
      CutWellFormed(s, e);
      CutHead(s, e);
      assert Cut(s, i) == [s[i..j]] + rest;
      CutStepShape(s[i..j], rest, e < |s|);
    }
  }

  /** Putting a word in front of a well-formed list keeps it well formed,
      provided the list's first piece is not empty or is alone. */
  lemma CutStepShape(w: string, rest: seq<string>, headNonEmpty: bool)
    requires IsWord(w) && WellFormed(rest)
    requires headNonEmpty ==> rest[0] != ""
    requires !headNonEmpty ==> |rest| == 1
    ensures WellFormed([w] + rest)
  {
    var r := [w] + rest;
    forall i | 0 < i < |r| ensures r[i] == rest[i - 1] {
    }
  }

  /** The pieces of `Cut` hold exactly the non-whitespace characters. */
  lemma {:induction false} CutContent(s: string, i: nat)
    requires i <= |s|
    ensures Concat(Cut(s, i)) == StripFrom(s, i)
    decreases |s| - i
  {
    var j := WordEnd(s, i);
    WordRun(s, i);
    StripWordRange(s, i, j);
    if j == |s| {
      assert Concat([s[i..]]) == s[i..] + Concat([]);
      assert s[i..j] == s[i..];
    } else {
      var e := SpaceEnd(s, j);
      SpaceRun(s, j);
      StripSpaceRange(s, j, e);
      CutContent(s, e);
      var rest := Cut(s, e);
      assert Cut(s, i) == [s[i..j]] + rest;
      assert ([s[i..j]] + rest)[1..] == rest;
    }
  }

  /** Stripping across a whitespace-free range keeps the range. */
  lemma {:induction false} StripWordRange(s: string, i: nat, j: nat)
    requires i <= j <= |s|
    requires forall k :: i <= k < j ==> !IsWhitespace(s[k])
    ensures StripFrom(s, i) == s[i..j] + StripFrom(s, j)
    decreases j - i
  {
    if i < j {
      calc {
        StripFrom(s, i);
        [s[i]] + StripFrom(s, i + 1);
        { StripWordRange(s, i + 1, j); }
        [s[i]] + (s[i + 1..j] + StripFrom(s, j));
        { assert [s[i]] + s[i + 1..j] == s[i..j]; }
        s[i..j] + StripFrom(s, j);
      }
    }
  }

  /** Stripping across a whitespace range drops the range. */
  lemma {:induction false} StripSpaceRange(s: string, i: nat, j: nat)
    requires i <= j <= |s|
    requires forall k :: i <= k < j ==> IsWhitespace(s[k])
    ensures StripFrom(s, i) == StripFrom(s, j)
    decreases j - i
  {
    if i < j {
      StripSpaceRange(s, i + 1, j);
    }
  }

  /** Trailing whitespace leaves an empty last piece. */
  lemma {:induction false} CutLast(s: string, i: nat)
    requires i <= |s|
    ensures i < |s| && IsWhitespace(s[|s| - 1]) ==> Cut(s, i)[|Cut(s, i)| - 1] == ""
    decreases |s| - i
  {
    var j := WordEnd(s, i);
    WordRun(s, i);
    if j < |s| {
      var e := SpaceEnd(s, j);
      CutLast(s, e);
    }
  }

  /** With more than one piece, the last piece is empty exactly when the
      string ends in whitespace. */
  lemma {:induction false} CutLastIff(s: string, i: nat)
    requires i <= |s|
    ensures |Cut(s, i)| > 1 ==>
              |s| > 0 && (Cut(s, i)[|Cut(s, i)| - 1] == "" <==> IsWhitespace(s[|s| - 1]))
    decreases |s| - i
  {
    var j := WordEnd(s, i);
    CutHead(s, i);
    if j < |s| {
      var e := SpaceEnd(s, j);
      var rest := Cut(s, e);
      CutUnfold(s, i, j, e);
      CutHead(s, e);
      assert Cut(s, i)[|Cut(s, i)| - 1] == rest[|rest| - 1];
      if |rest| > 1 {
        CutLastIff(s, e);
      } else if e == |s| {
        SpaceRun(s, j);
      } else {
        WordRun(s, e);
        assert s[|s| - 1] in rest[0];
      }
    }
  }

  /** Splitting undoes joining with single spaces: every well-formed piece
      list is recovered from its joined string. */
  lemma {:induction false} SplitJoin(ts: seq<string>)
    requires WellFormed(ts)
    ensures Split(Join(ts)) == ts
  {
    if |ts| == 1 {
      WordAll(ts[0]);
      CutHead(ts[0], 0);
      assert ts[0][0..WordEnd(ts[0], 0)] == ts[0];
    } else {
      var rest := ts[1..];
      WellFormedTail(ts);
      var j := Join(rest);
      assert Join(ts) == ts[0] + " " + j;
      assert j == [] || !IsWhitespace(j[0]) by {
        JoinStart(rest);
        if |rest| > 1 {
          assert rest[0] == ts[1];
        }
      }
      assert IsRun(" ");
      CutWordRun(ts[0], " ", j);
      SplitJoin(rest);
    }
  }

  /** A joined string starts with its first piece. */
  lemma JoinStart(ts: seq<string>)
    requires WellFormed(ts)
    ensures ts[0] != "" ==> Join(ts) != [] && Join(ts)[0] == ts[0][0]
    ensures ts[0] == "" && |ts| == 1 ==> Join(ts) == []
  {
    if |ts| > 1 && ts[0] != "" {
      FirstOfAppend(ts[0], " " + Join(ts[1..]));
      AppendAssoc(ts[0], " ", Join(ts[1..]));
    }
  }

  /** Dropping the first piece of a list of at least two keeps it well formed. */
  lemma WellFormedTail(ts: seq<string>)
    requires WellFormed(ts) && |ts| > 1
    ensures WellFormed(ts[1..])
  {
    var rest := ts[1..];
    forall i | 0 <= i < |rest| ensures IsWord(rest[i]) {
      assert rest[i] == ts[i + 1];
    }
    forall i | 0 < i < |rest| - 1 ensures rest[i] != "" {
      assert rest[i] == ts[i + 1];
    }
  }

  /** A word, a whitespace run, and a string that does not start with
      whitespace split into the word followed by the pieces of that string;
      with the empty word this is a leading run. Together with
      `IsWord(s) ==> Split(s) == [s]` this fixes every split result. */
  lemma SplitWordRun(w: string, run: string, rest: string)
    requires IsWord(w) && IsRun(run)
    requires rest == [] || !IsWhitespace(rest[0])
    ensures Split(w + run + rest) == [w] + Split(rest)
  {
    CutWordRun(w, run, rest);
  }

  /** `SplitWordRun`, stated on `Cut`. */
  lemma CutWordRun(w: string, run: string, rest: string)
    requires IsWord(w) && IsRun(run)
    requires rest == [] || !IsWhitespace(rest[0])
    ensures Cut(w + run + rest, 0) == [w] + Cut(rest, 0)
  {
    var x := w + run;
    WordEndFrom(w, run, rest, 0);
    SpaceEndFrom(w, run, rest, |w|);
    CutShiftStart(x, rest);
    PrefixOfAppend(w, run);
    CutWordRunStep(w, x, rest);
  }

  /** `CutWordRun` from the places where the first word and the run after
      it end, and from `CutShift` past them. */
  lemma CutWordRunStep(w: string, x: string, rest: string)
    requires |w| < |x| && x[..|w|] == w
    requires WordEnd(x + rest, 0) == |w| && SpaceEnd(x + rest, |w|) == |x|
    requires Cut(x + rest, |x|) == Cut(rest, 0)
    ensures Cut(x + rest, 0) == [w] + Cut(rest, 0)
  {
    var s := x + rest;
    CutUnfold(s, 0, |w|, |x|);
    assert s[0..|w|] == w;
    ConsCongruence(s[0..|w|], w, Cut(s, |x|), Cut(rest, 0));
  }

  /** From inside `w`, the word of `w + run + rest` ends where `w` does. */
  lemma {:induction false} WordEndFrom(w: string, run: string, rest: string, k: nat)
    requires IsWord(w) && IsRun(run) && k <= |w|
    ensures WordEnd(w + run + rest, k) == |w|
    decreases |w| - k
  {
    var s := w + run + rest;
    if k < |w| {
      assert s[k] == w[k];
      WordEndFrom(w, run, rest, k + 1);
    } else {
      assert s[k] == run[0];
    }
  }

  /** From inside `run`, the run of `w + run + rest` ends where `run` does. */
  lemma {:induction false} SpaceEndFrom(w: string, run: string, rest: string, k: nat)
    requires IsRun(run) && (rest == [] || !IsWhitespace(rest[0]))
    requires |w| <= k <= |w| + |run|
    ensures SpaceEnd(w + run + rest, k) == |w| + |run|
    decreases |w| + |run| - k
  {
    var s := w + run + rest;
    if k < |w| + |run| {
      assert s[k] == run[k - |w|];
      SpaceEndFrom(w, run, rest, k + 1);
    } else if rest != [] {
      assert s[k] == rest[0];
    }
  }

  /** Cutting after a prefix `x` is cutting the rest on its own. */
  lemma {:induction false} CutShift(x: string, y: string, k: nat)
    requires k <= |y|
    ensures Cut(x + y, |x| + k) == Cut(y, k)
    decreases |y| - k
  {
    var j := WordEnd(y, k);
    WordEndShift(x, y, k);
    if j == |y| {
      CutShiftLast(x, y, k);
    } else {
      var e := SpaceEnd(y, j);
      SpaceEndShift(x, y, j);
      CutShift(x, y, e);
      CutShiftStep(x, y, k, j, e);
    }
  }

  /** `CutShift` from the start of `y`. */
  lemma CutShiftStart(x: string, y: string)
    ensures Cut(x + y, |x|) == Cut(y, 0)
  {
    CutShift(x, y, 0);
  }

  /** `CutShift` when the word at `k` runs to the end. */
  lemma CutShiftLast(x: string, y: string, k: nat)
    requires k <= |y| && WordEnd(y, k) == |y|
    requires WordEnd(x + y, |x| + k) == |x| + |y|
    ensures Cut(x + y, |x| + k) == Cut(y, k)
  {
    var s := x + y;
    assert s[|x| + k..] == y[k..];
  }

  /** `CutShift` one word further: the word of `y` at `k` ends at `j`, the
      run after it at `e`, and both are found at the same places after `x`. */
  lemma CutShiftStep(x: string, y: string, k: nat, j: nat, e: nat)
    requires k <= |y| && j == WordEnd(y, k) && j < |y| && e == SpaceEnd(y, j)
    requires WordEnd(x + y, |x| + k) == |x| + j
    requires SpaceEnd(x + y, |x| + j) == |x| + e
    requires Cut(x + y, |x| + e) == Cut(y, e)
    ensures Cut(x + y, |x| + k) == Cut(y, k)
  {
    CutUnfoldShifted(x, y, k, j, e);
    CutUnfold(y, k, j, e);
    ConsCongruence(y[k..j], y[k..j], Cut(x + y, |x| + e), Cut(y, e));
  }

  /** One step of `Cut` on `x + y` from `|x| + k`, its word read in `y`. */
  lemma CutUnfoldShifted(x: string, y: string, k: nat, j: nat, e: nat)
    requires k <= j < e <= |y|
    requires WordEnd(x + y, |x| + k) == |x| + j
    requires SpaceEnd(x + y, |x| + j) == |x| + e
    ensures Cut(x + y, |x| + k) == [y[k..j]] + Cut(x + y, |x| + e)
  {
    CutUnfold(x + y, |x| + k, |x| + j, |x| + e);
    SliceShift(x, y, k, j);
    ConsCongruence((x + y)[|x| + k..|x| + j], y[k..j], Cut(x + y, |x| + e), Cut(x + y, |x| + e));
  }

  /** One step of `Cut` when the word at `i` ends at `j` before the end of
      `s` and the whitespace after it runs to `e`. */
  lemma CutUnfold(s: string, i: nat, j: nat, e: nat)
    requires i <= |s| && j == WordEnd(s, i) && j < |s| && e == SpaceEnd(s, j)
    ensures Cut(s, i) == [s[i..j]] + Cut(s, e)
  {
  }

  /** Equal heads and equal tails make equal lists. */
  lemma ConsCongruence(a: string, b: string, p: seq<string>, q: seq<string>)
    requires a == b && p == q
    ensures [a] + p == [b] + q
  {
  }

  /** A slice of `y` read through the prefix `x`. */
  lemma SliceShift(x: string, y: string, k: nat, j: nat)
    requires k <= j <= |y|
    ensures (x + y)[|x| + k..|x| + j] == y[k..j]
  {
  }

  /** Word ends are found at the same place after a prefix. */
  lemma {:induction false} WordEndShift(x: string, y: string, k: nat)
    requires k <= |y|
    ensures WordEnd(x + y, |x| + k) == |x| + WordEnd(y, k)
    decreases |y| - k
  {
    if k < |y| {
      assert (x + y)[|x| + k] == y[k];
      WordEndShift(x, y, k + 1);
    }
  }

  /** Run ends are found at the same place after a prefix. */
  lemma {:induction false} SpaceEndShift(x: string, y: string, k: nat)
    requires k <= |y|
    ensures SpaceEnd(x + y, |x| + k) == |x| + SpaceEnd(y, k)
    decreases |y| - k
  {
    if k < |y| {
      assert (x + y)[|x| + k] == y[k];
      SpaceEndShift(x, y, k + 1);
    }
  }

}

=== FILE: trigger.dfy ===
/** `trigger(events, ...args)` as the trace of callback invocations it
    performs, in order. Callbacks are not run, so the registry cannot change
    while the trace is produced. */
module Dispatch {
  import opened Options
  import opened Spliter
  import opened Events

  /** A value passed to a callback: the event string that `trigger` was
      called with, or any other argument (an opaque identity). */
  datatype Value = EventString(s: string) | Arg(id: nat)

  /** The `this` of an invocation: the listener's context, or the
      dispatcher itself when the listener has none. */
  datatype Receiver = Dispatcher | Bound(context: Context)

  /** One `listener.callback.apply(receiver, args)`. */
  datatype Invocation = Invocation(callback: Callback, receiver: Receiver, args: seq<Value>)

  /** `listener.context || this`. */
  function ReceiverOf(l: Listener): (r: Receiver)
    ensures r.Bound? <==> l.context.Some?
    ensures r.Bound? ==> l.context == Some(r.context)
  {
    match l.context
    case None => Dispatcher
    case Some(c) => Bound(c)
  }

  /** The invocation a listener receives with `args`. */
  function Call(l: Listener, args: seq<Value>): Invocation
  {
    Invocation(l.callback, ReceiverOf(l), args)
  }

  /** One `for` loop over a listener list: each listener once, in binding
      order, all with the same arguments. */
  function Pass(ls: seq<Listener>, args: seq<Value>): (r: seq<Invocation>)
    ensures |r| == |ls|
    ensures forall i :: 0 <= i < |ls| ==> r[i] == Call(ls[i], args)
  {
    if ls == [] then [] else [Call(ls[0], args)] + Pass(ls[1..], args)
  }

  /** The invocations for one token `t` of the event string `events`: the
      listeners under `t` with the trailing arguments, then, when key "all"
      is present, the same listeners again with the full argument list,
      which starts with `events` itself. */
  function TriggerToken(reg: Registry, t: string, events: string, args: seq<Value>): seq<Invocation>
  {
    if t !in reg then []
    else
      var ls := reg[t];
      Pass(ls, args) + (if "all" in reg then Pass(ls, [EventString(events)] + args) else [])
  }

  /** One iteration of the token loop: nothing for an unbound token; its
      listeners in order with the trailing arguments; and, only when key
      "all" is bound, the same listeners once more with the event string
      in front of the arguments. */
  lemma TriggerTokenSpec(reg: Registry, t: string, events: string, args: seq<Value>)
    ensures t !in reg ==> TriggerToken(reg, t, events, args) == []
    ensures |TriggerToken(reg, t, events, args)|
            == if "all" in reg then 2 * |Lookup(reg, t)| else |Lookup(reg, t)|
    ensures forall i :: 0 <= i < |Lookup(reg, t)| ==>
              TriggerToken(reg, t, events, args)[i] == Call(Lookup(reg, t)[i], args)
    ensures "all" in reg ==> forall i :: 0 <= i < |Lookup(reg, t)| ==>
              TriggerToken(reg, t, events, args)[|Lookup(reg, t)| + i]
              == Call(Lookup(reg, t)[i], [EventString(events)] + args)
  {
  }

  /** Whether `inv` is an invocation of some listener under key `t`. */
  predicate InvokedFrom(inv: Invocation, reg: Registry, t: string)
  {
    exists l :: l in Lookup(reg, t) && inv.callback == l.callback && inv.receiver == ReceiverOf(l)
  }

  /** Whether `inv` is an invocation of some listener under one of `ts`. */
  predicate InvokedFromAny(inv: Invocation, reg: Registry, ts: seq<string>)
  {
    exists t :: t in ts && InvokedFrom(inv, reg, t)
  }

  /** The token loop, in token order (duplicates included). */
  function TriggerTokens(reg: Registry, ts: seq<string>, events: string, args: seq<Value>): seq<Invocation>
    decreases |ts|
  {
    if ts == [] then []
    else TriggerTokens(reg, ts[..|ts| - 1], events, args) + TriggerToken(reg, ts[|ts| - 1], events, args)
  }

  /** The number of listeners under the tokens, counted once per token
      occurrence (an absent key counts zero). */
  function ListenerCount(reg: Registry, ts: seq<string>): nat
    decreases |ts|
  {
    if ts == [] then 0
    else ListenerCount(reg, ts[..|ts| - 1]) + |Lookup(reg, ts[|ts| - 1])|
  }

  /** Every invocation of the token loop comes from a listener under one of
      the tokens, and carries either the trailing arguments or, only when
      key "all" is present, the full argument list. Conversely every
      listener under every token is invoked with the trailing arguments,
      and, when "all" is present, once more with the full argument list;
      the trace holds one invocation per listener and token occurrence,
      twice that when "all" is present. */
  lemma {:induction false} TriggerTokensSpec(reg: Registry, ts: seq<string>, events: string, args: seq<Value>)
    ensures forall i :: 0 <= i < |TriggerTokens(reg, ts, events, args)| ==>
              InvokedFromAny(TriggerTokens(reg, ts, events, args)[i], reg, ts)
    ensures forall i :: 0 <= i < |TriggerTokens(reg, ts, events, args)| ==>
              || TriggerTokens(reg, ts, events, args)[i].args == args
              || ("all" in reg && TriggerTokens(reg, ts, events, args)[i].args == [EventString(events)] + args)
    ensures forall t, l :: t in ts && l in Lookup(reg, t) ==>
              Call(l, args) in TriggerTokens(reg, ts, events, args)
    ensures "all" in reg ==> forall t, l :: t in ts && l in Lookup(reg, t) ==>
              Call(l, [EventString(events)] + args) in TriggerTokens(reg, ts, events, args)
    ensures |TriggerTokens(reg, ts, events, args)|
            == if "all" in reg then 2 * ListenerCount(reg, ts) else ListenerCount(reg, ts)
    decreases |ts|
  {
    if ts != [] {
      var init := ts[..|ts| - 1];
      TriggerTokensSpec(reg, init, events, args);
      TriggerTokensStep(reg, ts, events, args, TriggerTokens(reg, init, events, args),
                        TriggerToken(reg, ts[|ts| - 1], events, args));
      TriggerTokensCoverStep(reg, ts, events, args, TriggerTokens(reg, init, events, args),
                             TriggerToken(reg, ts[|ts| - 1], events, args));
      TriggerTokensLengthStep(reg, ts, events, args, TriggerTokens(reg, init, events, args),
                              TriggerToken(reg, ts[|ts| - 1], events, args));
    }
  }

  /** The inductive step of the converse half of `TriggerTokensSpec`:
      every listener under a token is covered. */
  lemma TriggerTokensCoverStep(reg: Registry, ts: seq<string>, events: string, args: seq<Value>,
                               before: seq<Invocation>, last: seq<Invocation>)
    requires ts != []
    requires forall t, l :: t in ts[..|ts| - 1] && l in Lookup(reg, t) ==> Call(l, args) in before
    requires "all" in reg ==> forall t, l :: t in ts[..|ts| - 1] && l in Lookup(reg, t) ==>
               Call(l, [EventString(events)] + args) in before
    requires last == TriggerToken(reg, ts[|ts| - 1], events, args)
    ensures forall t, l :: t in ts && l in Lookup(reg, t) ==> Call(l, args) in before + last
    ensures "all" in reg ==> forall t, l :: t in ts && l in Lookup(reg, t) ==>
              Call(l, [EventString(events)] + args) in before + last
  {
    var init, u := ts[..|ts| - 1], ts[|ts| - 1];
    var full := [EventString(events)] + args;
    assert ts == init + [u];
    forall t, l | t in ts && l in Lookup(reg, t)
      ensures Call(l, args) in before + last
      ensures "all" in reg ==> Call(l, full) in before + last
    {
      if t in init {
        assert Call(l, args) in before;
        assert "all" in reg ==> Call(l, full) in before;
      } else {
        TokenCovers(reg, u, events, args, l);
      }
    }
  }

  /** One iteration of the token loop invokes each listener under its
      token, and again with the full arguments when "all" is present. */
  lemma TokenCovers(reg: Registry, t: string, events: string, args: seq<Value>, l: Listener)
    requires l in Lookup(reg, t)
    ensures Call(l, args) in TriggerToken(reg, t, events, args)
    ensures "all" in reg ==> Call(l, [EventString(events)] + args) in TriggerToken(reg, t, events, args)
  {
    var ls := Lookup(reg, t);
    var r := TriggerToken(reg, t, events, args);
    TriggerTokenSpec(reg, t, events, args);
    var i :| 0 <= i < |ls| && ls[i] == l;
    assert r[i] == Call(l, args);
    if "all" in reg {
      assert r[|ls| + i] == Call(l, [EventString(events)] + args);
    }
  }

  /** The inductive step of the length half of `TriggerTokensSpec`. */
  lemma TriggerTokensLengthStep(reg: Registry, ts: seq<string>, events: string, args: seq<Value>,
                                before: seq<Invocation>, last: seq<Invocation>)
    requires ts != []
    requires |before| == if "all" in reg then 2 * ListenerCount(reg, ts[..|ts| - 1])
                         else ListenerCount(reg, ts[..|ts| - 1])
    requires last == TriggerToken(reg, ts[|ts| - 1], events, args)
    ensures |before + last| == if "all" in reg then 2 * ListenerCount(reg, ts) else ListenerCount(reg, ts)
  {
    TriggerTokenSpec(reg, ts[|ts| - 1], events, args);
  }

  /** The inductive step of `TriggerTokens`. */
  lemma TriggerTokensStep(reg: Registry, ts: seq<string>, events: string, args: seq<Value>,
                          before: seq<Invocation>, last: seq<Invocation>)
    requires ts != []
    requires forall i :: 0 <= i < |before| ==> InvokedFromAny(before[i], reg, ts[..|ts| - 1])
    requires forall i :: 0 <= i < |before| ==>
               before[i].args == args || ("all" in reg && before[i].args == [EventString(events)] + args)
    requires last == TriggerToken(reg, ts[|ts| - 1], events, args)
    ensures forall i :: 0 <= i < |before + last| ==> InvokedFromAny((before + last)[i], reg, ts)
    ensures forall i :: 0 <= i < |before + last| ==>
              (before + last)[i].args == args
              || ("all" in reg && (before + last)[i].args == [EventString(events)] + args)
  {
    var t := ts[|ts| - 1];
    var ls := Lookup(reg, t);
    var r := before + last;
    TriggerTokenSpec(reg, t, events, args);
    forall i | 0 <= i < |r| ensures InvokedFromAny(r[i], reg, ts) {
      if i < |before| {
        assert InvokedFromAny(before[i], reg, ts[..|ts| - 1]);
        var u :| u in ts[..|ts| - 1] && InvokedFrom(before[i], reg, u);
        assert u in ts && InvokedFrom(r[i], reg, u);
      } else {
        var k := i - |before|;
        var j := if k < |ls| then k else k - |ls|;
        assert ls[j] in ls;
        assert InvokedFrom(r[i], reg, t);
        assert t in ts;
      }
    }
  }

  /** `trigger(events, ...args)` on the registry `reg`. */
  function Trigger(reg: Registry, events: string, args: seq<Value>): (r: seq<Invocation>)
    ensures forall i :: 0 <= i < |r| ==> InvokedFromAny(r[i], reg, Split(events))
    ensures forall i :: 0 <= i < |r| ==>
              r[i].args == args || ("all" in reg && r[i].args == [EventString(events)] + args)
    ensures forall t, l :: t in Split(events) && l in Lookup(reg, t) ==> Call(l, args) in r
    ensures "all" in reg ==> forall t, l :: t in Split(events) && l in Lookup(reg, t) ==>
              Call(l, [EventString(events)] + args) in r
    ensures |r| == if "all" in reg then 2 * ListenerCount(reg, Split(events)) else ListenerCount(reg, Split(events))
  {
    TriggerTokensSpec(reg, Split(events), events, args);
    TriggerTokens(reg, Split(events), events, args)
  }

}

=== FILE: unbind.dfy ===
/** `unbind(events, callback, context)` and its three modes. */
module Unbinding {
  import opened Options
  import opened Seqs
  import opened Spliter
  import opened Events

  /** The two shapes of a call: no arguments at all, or an event string with
      a callback that may not be a function (`None`) and a context that may
      not be a non-null object (`None`). */
  datatype UnbindCall =
    | UnbindAll
    | UnbindNamed(events: string, callback: Option<Callback>, context: Option<Context>)

  /** Whether the listener is removed by a callback filter: the same
      callback, and the same context when a context is given. */
  predicate Matches(l: Listener, callback: Callback, context: Option<Context>)
  {
    l.callback == callback && (context.None? || l.context == context)
  }

  /** The listeners that survive the filter, in their original order. */
  function Keep(ls: seq<Listener>, callback: Callback, context: Option<Context>): (r: seq<Listener>)
    ensures |r| <= |ls|
    ensures forall i :: 0 <= i < |r| ==> !Matches(r[i], callback, context)
  {
    if ls == [] then []
    else
      assert ls == [ls[0]] + ls[1..];
      (if Matches(ls[0], callback, context) then [] else [ls[0]]) + Keep(ls[1..], callback, context)
  }

  /** A listener survives exactly when it was there and does not match. */
  lemma {:induction false} KeepMembers(ls: seq<Listener>, callback: Callback, context: Option<Context>, x: Listener)
    ensures x in Keep(ls, callback, context) <==> x in ls && !Matches(x, callback, context)
  {
    if ls != [] {
      assert ls == [ls[0]] + ls[1..];
      KeepMembers(ls[1..], callback, context, x);
    }
  }

  /** Each surviving listener keeps its multiplicity; matching ones are gone. */
  lemma {:induction false} KeepCount(ls: seq<Listener>, callback: Callback, context: Option<Context>, x: Listener)
    ensures multiset(Keep(ls, callback, context))[x] == if Matches(x, callback, context) then 0 else multiset(ls)[x]
  {
    if ls != [] {
      assert ls == [ls[0]] + ls[1..];
      KeepCount(ls[1..], callback, context, x);
    }
  }

  /** Filtering distributes over concatenation, so relative order is kept. */
  lemma {:induction false} KeepAppend(a: seq<Listener>, b: seq<Listener>, callback: Callback, context: Option<Context>)
    ensures Keep(a + b, callback, context) == Keep(a, callback, context) + Keep(b, callback, context)
  {
    if a == [] {
      assert a + b == b;
    } else {
      RestOfAppend(a, b);
      KeepAppend(a[1..], b, callback, context);
      var head := if Matches(a[0], callback, context) then [] else [a[0]];
      AppendAssoc(head, Keep(a[1..], callback, context), Keep(b, callback, context));
    }
  }

  /** A list with no matching listener is left as it is. */
  lemma {:induction false} KeepNone(ls: seq<Listener>, callback: Callback, context: Option<Context>)
    requires forall x :: x in ls ==> !Matches(x, callback, context)
    ensures Keep(ls, callback, context) == ls
  {
    if ls != [] {
      assert ls[0] in ls;
      assert forall x :: x in ls[1..] ==> x in ls;
      KeepNone(ls[1..], callback, context);
    }
  }

  /** Filtering twice is filtering once. */
  lemma KeepTwice(ls: seq<Listener>, callback: Callback, context: Option<Context>)
    ensures Keep(Keep(ls, callback, context), callback, context) == Keep(ls, callback, context)
  {
    KeepNone(Keep(ls, callback, context), callback, context);
  }

  /** One iteration of the token loop for key `t`. */
  function UnbindToken(reg: Registry, t: string, callback: Option<Callback>, context: Option<Context>): Registry
  {
    if t !in reg then reg
    else if callback.None? then reg - {t}
    else
      var kept := Keep(reg[t], callback.value, context);
      if kept == [] then reg - {t} else reg[t := kept]
  }

  /** The token loop, in token order. */
  function UnbindTokens(reg: Registry, ts: seq<string>, callback: Option<Callback>, context: Option<Context>): Registry
    decreases |ts|
  {
    if ts == [] then reg
    else UnbindToken(UnbindTokens(reg, ts[..|ts| - 1], callback, context), ts[|ts| - 1], callback, context)
  }

  /** What the token loop does. Without a callback every named key is
      deleted. With one, every named key keeps exactly its non-matching
      listeners and is deleted when none is left. Keys not named are
      untouched, and the registry invariant is kept. */
  lemma {:induction false} UnbindTokensSpec(reg: Registry, ts: seq<string>, callback: Option<Callback>, context: Option<Context>)
    ensures callback.None? ==> UnbindTokens(reg, ts, callback, context) == reg - Tokens(ts)
    ensures callback.Some? ==> forall k :: Lookup(UnbindTokens(reg, ts, callback, context), k) ==
                                            (if k in ts then Keep(Lookup(reg, k), callback.value, context)
                                             else Lookup(reg, k))
    ensures callback.Some? ==> forall k :: k in UnbindTokens(reg, ts, callback, context) <==>
              k in reg && (k in ts ==> Keep(reg[k], callback.value, context) != [])
    ensures Valid(reg) ==> Valid(UnbindTokens(reg, ts, callback, context))
    decreases |ts|
  {
    if ts == [] {
      assert Tokens(ts) == {};
    } else {
      var init, t := ts[..|ts| - 1], ts[|ts| - 1];
      UnbindTokensSpec(reg, init, callback, context);
      assert ts == init + [t];
      if callback.None? {
        RemoveStep(reg, init, t);
      } else {
        FilterStep(reg, UnbindTokens(reg, init, callback, context), init, t, callback.value, context);
      }
    }
  }

  /** The inductive step of `UnbindTokens` without a callback. */
  lemma RemoveStep(reg: Registry, init: seq<string>, t: string)
    ensures (reg - Tokens(init)) - {t} == reg - Tokens(init + [t])
    ensures t !in reg - Tokens(init) ==> reg - Tokens(init) == reg - Tokens(init + [t])
  {
    TokensSnoc(init, t);
  }

  /** The inductive step of `UnbindTokens` with a callback. */
  lemma FilterStep(reg: Registry, before: Registry, init: seq<string>, t: string,
                   callback: Callback, context: Option<Context>)
    requires forall k :: Lookup(before, k) ==
               if k in init then Keep(Lookup(reg, k), callback, context) else Lookup(reg, k)
    requires forall k :: k in before <==>
               k in reg && (k in init ==> Keep(reg[k], callback, context) != [])
    requires Valid(reg) ==> Valid(before)
    ensures forall k :: Lookup(UnbindToken(before, t, Some(callback), context), k) ==
              if k in init + [t] then Keep(Lookup(reg, k), callback, context) else Lookup(reg, k)
    ensures forall k :: k in UnbindToken(before, t, Some(callback), context) <==>
              k in reg && (k in init + [t] ==> Keep(reg[k], callback, context) != [])
    ensures Valid(reg) ==> Valid(UnbindToken(before, t, Some(callback), context))
  {
    var r := UnbindToken(before, t, Some(callback), context);
    forall k
      ensures Lookup(r, k) == if k in init + [t] then Keep(Lookup(reg, k), callback, context) else Lookup(reg, k)
      ensures k in r <==> k in reg && (k in init + [t] ==> Keep(reg[k], callback, context) != [])
    {
      FilterKey(reg, before, init, t, callback, context, k);
    }
    if Valid(reg) {
      UnbindTokenValid(before, t, Some(callback), context);
    }
  }

  /** One iteration of the token loop leaves no key with an empty list. */
  lemma UnbindTokenValid(reg: Registry, t: string, callback: Option<Callback>, context: Option<Context>)
    requires Valid(reg)
    ensures Valid(UnbindToken(reg, t, callback, context))
  {
    var r := UnbindToken(reg, t, callback, context);
    forall k | k in r ensures r[k] != [] {
      if k != t {
        assert r[k] == reg[k];
      }
    }
  }

  /** The inductive step of `UnbindTokens` with a callback, on one key. */
  lemma FilterKey(reg: Registry, before: Registry, init: seq<string>, t: string,
                  callback: Callback, context: Option<Context>, k: string)
    requires Lookup(before, k) == if k in init then Keep(Lookup(reg, k), callback, context) else Lookup(reg, k)
    requires k in before <==> k in reg && (k in init ==> Keep(reg[k], callback, context) != [])
    ensures Lookup(UnbindToken(before, t, Some(callback), context), k) ==
              if k in init + [t] then Keep(Lookup(reg, k), callback, context) else Lookup(reg, k)
    ensures k in UnbindToken(before, t, Some(callback), context) <==>
              k in reg && (k in init + [t] ==> Keep(reg[k], callback, context) != [])
  {
    assert k in init + [t] <==> k in init || k == t;
    if k == t {
      FilterSameKey(reg, before, init, t, callback, context);
    } else {
      assert UnbindToken(before, t, Some(callback), context) == before - {t}
             || UnbindToken(before, t, Some(callback), context) == before
             || UnbindToken(before, t, Some(callback), context)
                == before[t := Keep(before[t], callback, context)];
    }
  }

  /** `FilterKey` on the token's own key. */
  lemma FilterSameKey(reg: Registry, before: Registry, init: seq<string>, t: string,
                      callback: Callback, context: Option<Context>)
    requires Lookup(before, t) == if t in init then Keep(Lookup(reg, t), callback, context) else Lookup(reg, t)
    requires t in before <==> t in reg && (t in init ==> Keep(reg[t], callback, context) != [])
    ensures Lookup(UnbindToken(before, t, Some(callback), context), t) == Keep(Lookup(reg, t), callback, context)
    ensures t in UnbindToken(before, t, Some(callback), context) <==>
              t in reg && Keep(reg[t], callback, context) != []
  {
    var kept := Keep(Lookup(reg, t), callback, context);
    if t in before {
      assert t in reg;
      if t in init {
        KeepTwice(reg[t], callback, context);
      }
      assert Keep(before[t], callback, context) == kept;
    } else if t in reg {
      assert kept == [];
    } else {
      assert Lookup(reg, t) == [];
    }
  }

  /** `unbind(...)` on the registry `reg`. */
  function Unbind(reg: Registry, call: UnbindCall): (r: Registry)
    ensures call.UnbindAll? ==> r == map[]
    ensures call.UnbindNamed? && call.callback.None? ==> r == reg - Tokens(Split(call.events))
    ensures call.UnbindNamed? && call.callback.Some? ==>
              forall k :: Lookup(r, k) ==
                (if k in Split(call.events) then Keep(Lookup(reg, k), call.callback.value, call.context)
                 else Lookup(reg, k))
    ensures Valid(reg) ==> Valid(r)
  {
    match call
    case UnbindAll => map[]
    case UnbindNamed(events, callback, context) =>
      UnbindTokensSpec(reg, Split(events), callback, context);
      UnbindTokens(reg, Split(events), callback, context)
  }

}
